=== FILE: README.md ===
# Lint-and-repair pipeline, modelled in Dafny

The system lints one Python file. If the linter reports a problem, it asks a
language model for a corrected version of the file and computes a unified
patch. It then stops (dry run) or overwrites the file and appends a record
to the `results.json` log.

The model covers two source files:

- `agent.py`, the pipeline, in `agent.dfy` (module `Agent`):
  - the state record and the partial updates each node returns;
  - the way the graph merges an update into the state;
  - the three nodes: `check_code`, `analyze_and_fix` and `save_results`;
  - the two routing functions and the graph's edges;
  - `run_agent`, from the initial state to END.
- `utils.py`, the helpers, in `utils.dfy` (module `Utils`):
  - the shape of the linter report;
  - `apply_fix`, `generate_patch`, `log_result`, `read_file` and `save_patch_to_disk`.

Two more files support them:

- `pytext.dfy` (module `PyText`) gives the Python string operations the code relies on, with Python's own edge cases:
  - `strip` with Python's whitespace set;
  - `split("\n", 1)[1]`, which raises IndexError when there is no "\n";
  - `rsplit("\n", 1)[0]`;
  - `splitlines(keepends=True)` with all of its line boundaries;
  - `"".join`;
  - POSIX `basename`.
- `wrappers.dfy` defines `Option`, which stands for Python's `None`, and `Result`, which stands for an exception ending a call.

The world the pipeline changes is a `Utils.World` object with two fields:

- a map from path to file content;
- the state of the log file. That state is one of: missing, not JSON, a JSON list of entries, or some other JSON value.

Nodes that touch the world are methods with `modifies` clauses. Routing, fence
stripping, patch text and log arithmetic are functions.

The following are inputs to the model:

- the linter's return code and output streams;
- the model's reply, or `None` when the call raised (BackendError);
- how each file write turns out (the target file, the rewrite of `results.json`, a patch file): written in full, the open fails, or the open empties the file and the write then fails part way;
- the timestamp text;
- the hunk lines `difflib` would emit.

Where the code does something a reader may not expect, the model follows the code:

- `save_results` ignores the boolean `apply_fix` returns. After a failed write the run still ends with status "fixed", and the log entry says "fixed" whenever `fixed_code` is non-empty.
- The patch the pipeline stores and logs is the one `generate_patch` builds with `lineterm=""`, so its two header lines run together (see "## Findings").
- A log file that holds JSON but not a list makes `append` raise after the target file was already overwritten. The run then aborts with the file changed and no entry logged.
- A log file that is missing or not JSON is replaced by a one-entry list, so earlier entries are lost.
- `read_file` opens the file in text mode, so the code handed to the fixer and diffed has every "\r\n" and every other "\r" turned into "\n". The file map holds the text as stored.
- The rewrite of `results.json` and the write of a patch file have no exception handler. A failed rewrite raises out of `save_results` after the target file was already overwritten; if it fails part way, the cut-off log is no longer JSON and the next `log_result` drops every earlier entry.
- A missing target file surfaces as a KeyError on "returncode". The linter report for a missing file has no such key.

## Model

| member | source | states |
|---|---|---|
| PyText.Strip | agent.py:60 | the result is a stretch of the input with only whitespace before and after it, and has no whitespace at either end; it is empty exactly when the reply is all whitespace, and equals the input when its ends are already not whitespace |
| PyText.SplitOnceTail | agent.py:64 | fails with IndexError exactly when the separator is absent; otherwise the result is what follows the first separator |
| PyText.RSplitOnceHead | agent.py:66 | without the separator the text comes back whole; otherwise the result is what precedes the last separator |
| PyText.SplitLines | utils.py:46-47 | no pieces exactly for the empty text; SplitLinesJoin, SplitLinesAreLines and SplitLinesKeepCrLf state what the pieces are |
| PyText.SplitLinesJoin | utils.py:46-47 | joining the pieces of `splitlines(keepends=True)` gives back the input |
| PyText.SplitLinesAreLines | utils.py:46-47 | every piece is non-empty and every piece but the last ends in a line break; no piece holds a line break before its end, except the "\r" of a final "\r\n" |
| PyText.SplitLinesKeepCrLf | utils.py:46-47 | a piece ending in "\r" is never followed by a piece starting with "\n": a "\r\n" is one line boundary |
| PyText.UniversalNewlinesDropCr | utils.py:84-85 | text read in text mode holds no "\r" |
| PyText.UniversalNewlinesKeepPlain | utils.py:84-85 | text without "\r" reads back exactly as stored |
| PyText.SplitLinesInjective | utils.py:46-47 | two texts with the same lines are equal |
| PyText.Basename | utils.py:95 | the result has no "/"; it is a suffix of the path, and a "/" comes right before it when it is shorter than the path |
| Utils.LintFile | utils.py:9-28 | a path that is not in the file map gives only the "File not found" error entry; otherwise the report is the linter's outcome |
| Utils.MakeEntry | utils.py:62-68 | the record carries the timestamp, path, errors and patch as given, and the status LogOutcome gives: "fixed" exactly when `fixed_code` is present and non-empty, "failed" otherwise |
| Utils.LogOutcome | utils.py:67 | "fixed" exactly when `fixed_code` is present and non-empty; "failed" otherwise |
| Utils.Appended | utils.py:70-81 | fails, with AttributeError("append"), exactly when the log holds JSON that is not a list; otherwise the loaded list gets one more entry, the new entry is last and earlier entries are unchanged; a missing or malformed log gives just [entry] |
| Utils.AppendAllKeepsOrder | utils.py:58-81 | after N appends, the log is the earlier list followed by the N entries in order |
| Utils.LostLogRestartsWithEntry | utils.py:70-76 | a missing or unreadable log becomes a one-entry list |
| Utils.PatchPath | utils.py:91-98 | the name is "patches/", the basename, "_", the timestamp and ".patch" in that order: each part can be read back from its place, and there is no "/" after "patches/" when the timestamp has none |
| Utils.UnifiedDiff | utils.py:49-55 | no lines exactly for equal line lists; otherwise the first two lines are "--- " and "+++ " with their labels, each followed by `lineterm` |
| Utils.GeneratePatchAsWritten | utils.py:42-56 | the patch `generate_patch` builds (with `lineterm=""`) is empty exactly when the new content equals the original |
| Utils.GeneratePatch | utils.py:42-56 | the corrected patch (header lines ended by "\n") is empty exactly when the new content equals the original |
| Utils.PatchEmptyIffUnchanged | utils.py:42-56 | the patch is empty exactly when the new content equals the original, for any path |
| Utils.PatchHeaderLines | utils.py:52-53 | with ended header lines, a real change to a file whose path has no line break yields a patch whose first two lines are "--- a/" + path and "+++ b/" + path |
| Utils.AsWrittenHeadersShareFirstLine | utils.py:49-56 | with `lineterm=""`, for a path without line breaks, the first line of a real change's patch starts with both labels run together |
| Utils.AsWrittenFirstLineNotHeader | utils.py:49-56 | with `lineterm=""`, for a path without line breaks, the first line of a real change's patch is never the "--- a/" header line |
| Utils.AfterWrite | utils.py:35-36 | a failed open leaves the files as they were; otherwise only the target changes, and it holds a prefix of the content, all of it when the write succeeds |
| Utils.World.ReadFile | utils.py:83-85 | returns the stored text with universal newlines applied: it holds no "\r", and equals the stored text when that has none |
| Utils.World.WriteText | utils.py:35-36 | raises OSError exactly when the write does not complete; the files become AfterWrite's result and the log is untouched |
| Utils.World.ApplyFix | utils.py:30-40 | returns true exactly when the write succeeds; the files become AfterWrite's result, so a write that fails after the truncating open leaves a prefix of the content (possibly nothing); the log is untouched |
| Utils.LogAfter | utils.py:70-81 | no exception exactly when the log is not list-less JSON and the rewrite completes, and then the log is the loaded list plus the entry; list-less JSON raises AttributeError and keeps the log; a failed open raises OSError and keeps the log; a rewrite failing part way raises OSError and leaves a log that is not JSON |
| Utils.TornLogLosesHistory | utils.py:70-81 | after a rewrite that fails part way, the next successful `log_result` leaves only its own entry: every earlier entry is lost |
| Utils.World.LogResult | utils.py:58-81 | the log becomes LogAfter's log, and the call raises exactly LogAfter's exception; files are untouched |
| Utils.World.SavePatchToDisk | utils.py:87-103 | writes the patch content under the name built by PatchPath with the given write outcome, returns that name when the write completes and raises OSError otherwise; the log is untouched |
| Agent.Merge | agent.py:99 | each key the node returns replaces its field and each key it leaves out keeps the field; `filepath` and `dry_run` never change |
| Agent.InitialState | agent.py:129-138 | status "start", empty code, no errors, fix or patch, and the given path and mode |
| Agent.CheckCode | agent.py:30-45 | fails with KeyError("returncode") exactly when the file is missing; a zero return code gives status clean with errors None and code, fix and patch kept; any other code gives status needs_fix, the labelled stdout/stderr report and the file's content, read with universal newlines, as code |
| Agent.DropOpeningFence | agent.py:63-64 | a fenced text without "\n" fails; an unfenced text is kept |
| Agent.DropClosingFence | agent.py:65-66 | the result is a prefix of the text; it is the whole text when the text has no closing fence or no "\n"; otherwise it is exactly what precedes the last "\n" |
| Agent.CleanReply | agent.py:60-66 | fails with IndexError exactly when the trimmed reply opens with a fence and has no "\n"; a reply with no fence at either end comes out trimmed and otherwise unchanged |
| Agent.StripKeepsFencedReply | agent.py:60 | trimming leaves a fenced reply as it is |
| Agent.OpeningFenceDropped | agent.py:63-64 | the opening fence line, language tag included, is removed up to and including its "\n" |
| Agent.ClosingFenceDropped | agent.py:65-66 | the closing fence line is removed together with the "\n" before it |
| Agent.FencedReplyCleansToBody | agent.py:60-66 | a reply wrapped in one pair of fence lines cleans to exactly its body |
| Agent.FencedReplyMatchesUnfenced | agent.py:60-66 | for a trimmed body, the fenced reply and the bare body clean to the same code |
| Agent.BareFenceRaises | agent.py:63-64 | a reply that is only an opening fence line, whatever follows the fence on that line, raises IndexError |
| Agent.FixedCode | agent.py:59-66 | a failed model call raises BackendError; a reply is cleaned by CleanReply |
| Agent.AnalyzeAndFix | agent.py:47-70 | fails exactly when the model call or the clean-up fails, with that error; otherwise sets `fixed_code` to the cleaned reply and `patch` to `generate_patch`'s diff of the code against it (empty exactly when nothing changed), and keeps code, errors and status |
| Agent.SaveResults | agent.py:72-85 | writes the file with the given write outcome, then logs as LogAfter says; reports status fixed, or the log's exception, after the file write has happened |
| Agent.RouteCheck | agent.py:88-91 | the run ends exactly when the status is clean; otherwise it goes to the analysis |
| Agent.RouteAnalyze | agent.py:93-96 | the run ends exactly on a dry run; otherwise it goes to saving |
| Agent.Successor | agent.py:105-125 | after check_code the run ends on clean and goes to analyze_and_fix otherwise; after analyze_and_fix it ends on a dry run and goes to save_results otherwise; after save_results it ends |
| Agent.EdgesGoDeeper | agent.py:105-125 | every edge leads to a deeper node and none returns to the entry, so the graph has no cycle |
| Agent.RunAgent | agent.py:129-140 | from the initial state, the result is one of four outcomes, each with its exact final state and world. A missing file raises and touches nothing. A zero return code ends clean and touches nothing. A dry run ends needs_fix with the fix and `generate_patch`'s patch (of the file's text read with universal newlines) filled in and touches nothing. Otherwise the file is written as far as the write got and the log becomes LogAfter's log; the run ends fixed, or raises the log's exception. The final status is never start, and the patch is present exactly when the fix is |

## Left out

- The linter subprocess: its return code and output streams are inputs. A linter that cannot be started makes `subprocess.run` raise, which aborts the run; that exception is not modelled. A linter that crashes after starting shows up as a nonzero return code.
- The language model call and its prompt: the reply is an input, and every exception the call can raise is one BackendError.
- The hunks of `difflib.unified_diff` are an uninterpreted input. Only the empty diff for equal inputs and the two header lines are modelled. So the round trip "applying the patch to the original gives the fix" is not stated.
- `datetime.now()` and its formatting: timestamps are opaque text inputs.
- JSON serialisation, indentation and file handles: the files are a map from path to content and the log is a list of entries. Read errors other than a missing file (permissions, undecodable bytes) are not modelled.
- Utils.World.SavePatchToDisk does not model `os.makedirs` or its failure: "patches/" is just a prefix of a key in the file map.
- Utils.World.WriteText writes the text as given: the translation of "\n" to `os.linesep` that a text-mode write does on Windows is not modelled.
- Agent.SaveResults requires `fixed_code` to be present. The graph reaches this node only after the analysis has set it, so the case where `fixed_code` is None is not modelled.
- Utils.World keeps the results log apart from the file map, and patch files live in that map beside the targets. A target path that is `results.json` itself, so that the log and the fixed file share one file on disk, is not modelled.
- Concurrent runs and the lost-update race on the log and on target files are not modelled.
- The progress and error messages printed to the console are left out; they change no state.
- `app.py` (the dashboard) and the driver scripts are not part of this model.
- PyText.Basename follows POSIX paths only. Windows separators are not modelled.

## Findings

| source | as written | input that shows it | evidently intended | confidence | as-written member | corrected member |
|---|---|---|---|---|---|---|
| utils.py:49-56 | `unified_diff` is called with `lineterm=""` on lines that keep their own line ends, so the "---" and "+++" headers get no line end and run together on the patch's first line | original "x\n", new "y\n", path "f.py": the patch starts "--- a/f.py+++ b/f.py" | header lines ended by "\n" (the default `lineterm`), so the patch opens "--- a/f.py\n+++ b/f.py\n" and patch tools can read it | high, not executed | Utils.AsWrittenFirstLineNotHeader | Utils.PatchHeaderLines |

=== FILE: agent.dfy ===
/**
 * The repair pipeline of `agent.py`: a state record threaded through three
 * nodes (check, analyse and fix, save), joined by two routing functions.
 * Each node returns a partial update that the graph merges into the state;
 * the linter outcome and the language model's reply are inputs.
 */
module Agent {
  import opened Wrappers
  import opened PyText
  import opened Utils

  /** The `status` strings "start", "clean", "needs_fix" and "fixed". */
  datatype Status = Start | Clean | NeedsFix | Fixed

  /** `AgentState` */
  datatype AgentState = AgentState(
    filepath: string,
    code: string,
    errors: Option<string>,
    fixedCode: Option<string>,
    patch: Option<string>,
    status: Status,
    dryRun: bool)

  /**
   * The dict a node returns: a key it sets is `Some(value)`, a key it leaves
   * out is `None`. No node returns `filepath` or `dry_run`.
   */
  datatype StateUpdate = StateUpdate(
    code: Option<string>,
    errors: Option<Option<string>>,
    fixedCode: Option<Option<string>>,
    patch: Option<Option<string>>,
    status: Option<Status>)

  function Or<T>(update: Option<T>, current: T): T {
    if update.Some? then update.value else current
  }

  /** How the graph folds a node's update into the state: the keys present overwrite, the rest stay. */
  function Merge(s: AgentState, u: StateUpdate): (t: AgentState)
    ensures t.filepath == s.filepath && t.dryRun == s.dryRun
    ensures t.code == if u.code.Some? then u.code.value else s.code
    ensures t.errors == if u.errors.Some? then u.errors.value else s.errors
    ensures t.fixedCode == if u.fixedCode.Some? then u.fixedCode.value else s.fixedCode
    ensures t.patch == if u.patch.Some? then u.patch.value else s.patch
    ensures t.status == if u.status.Some? then u.status.value else s.status
    ensures u == StateUpdate(None, None, None, None, None) ==> t == s
  {
    s.(code := Or(u.code, s.code),
       errors := Or(u.errors, s.errors),
       fixedCode := Or(u.fixedCode, s.fixedCode),
       patch := Or(u.patch, s.patch),
       status := Or(u.status, s.status))
  }

  /** The state `run_agent` starts from: nothing known yet but the path and the mode. */
  function InitialState(path: string, dryRun: bool): (s: AgentState)
    ensures s.filepath == path && s.dryRun == dryRun && s.status == Start
    ensures s.code == "" && s.errors == None && s.fixedCode == None && s.patch == None
  {
    AgentState(path, "", None, None, None, Start, dryRun)
  }

  /** The text `check_code` hands to the fixer: the linter's two streams, labelled. */
  function ErrorReport(lint: LintOutcome): string {
    "STDOUT:\n" + lint.stdout + "\nSTDERR:\n" + lint.stderr
  }

  /**
   * `check_code`: lint the file; a zero return code marks the state clean,
   * any other loads the file's content and the labelled linter output. A
   * missing file yields a report without "returncode", and reading that key
   * raises KeyError before anything is updated.
   */
  method CheckCode(w: World, s: AgentState, lint: LintOutcome) returns (r: Result<StateUpdate, PyError>)
    ensures r.Failure? <==> s.filepath !in w.files
    ensures r.Failure? ==> r.error == KeyError("returncode")
    ensures r.Success? ==>
              var t := Merge(s, r.value);
              && t.fixedCode == s.fixedCode && t.patch == s.patch
              && (lint.returncode == 0 ==> t.status == Clean && t.errors == None && t.code == s.code)
              && (lint.returncode != 0 ==>
                    && t.status == NeedsFix
                    && t.errors == Some(ErrorReport(lint))
                    && t.code == UniversalNewlines(w.files[s.filepath]))
  {
    var report := LintFile(w.files, s.filepath, lint);
    if report.FileNotFound? {
      return Failure(KeyError("returncode"));
    }
    if report.outcome.returncode == 0 {
      return Success(StateUpdate(None, Some(None), None, None, Some(Clean)));
    }
    var errors := ErrorReport(report.outcome);
    var code := w.ReadFile(s.filepath);
    return Success(StateUpdate(Some(code), Some(Some(errors)), None, None, Some(NeedsFix)));
  }

  const Fence: string := "```"

  /** The `split("\n", 1)[1]` step: a reply opening with a fence loses its first line; IndexError when it has only one. */
  function DropOpeningFence(trimmed: string): (r: Result<string, PyError>)
    ensures r.Failure? <==> StartsWith(trimmed, Fence) && '\n' !in trimmed
    ensures !StartsWith(trimmed, Fence) ==> r == Success(trimmed)
  {
    if StartsWith(trimmed, Fence) then SplitOnceTail(trimmed, '\n') else Success(trimmed)
  }

  /** The `rsplit("\n", 1)[0]` step: text closing with a fence loses its last line, unless it has only one. */
  function DropClosingFence(text: string): (r: string)
    ensures !EndsWith(text, Fence) || '\n' !in text ==> r == text
    ensures |r| <= |text| && r == text[..|r|]
    ensures EndsWith(text, Fence) && '\n' in text ==> |r| < |text| && text[|r|] == '\n' && '\n' !in text[|r| + 1..]
  {
    if EndsWith(text, Fence) then RSplitOnceHead(text, '\n') else text
  }

  /**
   * The clean-up `analyze_and_fix` applies to the model's reply: trim it;
   * if it opens with a fence, drop everything up to and including the first
   * "\n" (IndexError when there is none); then, if what is left closes with a
   * fence, drop the last "\n" and what follows it (nothing when there is no "\n").
   */
  function CleanReply(reply: string): (r: Result<string, PyError>)
    ensures r.Failure? <==> StartsWith(Strip(reply), Fence) && '\n' !in Strip(reply)
    ensures r.Failure? ==> r.error == IndexError
    ensures !StartsWith(Strip(reply), Fence) && !EndsWith(Strip(reply), Fence) ==> r == Success(Strip(reply))
  {
    match DropOpeningFence(Strip(reply))
    case Success(text) => Success(DropClosingFence(text))
    case Failure(e) => Failure(e)
  }

  /** A reply wrapped in a pair of fence lines, the opening one carrying a language tag. */
  function Fenced(lang: string, body: string): string {
    Fence + lang + "\n" + body + "\n" + Fence
  }

  /** A reply with no whitespace at either end is its own trimmed form. */
  lemma StripKeepsFencedReply(lang: string, body: string)
    ensures Strip(Fenced(lang, body)) == Fenced(lang, body)
  {
    var reply := Fenced(lang, body);
    assert reply[0] == '`' && reply[|reply| - 1] == '`';
  }

  /** An opening fence line, language tag and all, is dropped up to its "\n". */
  lemma OpeningFenceDropped(lang: string, rest: string)
    requires '\n' !in lang
    ensures DropOpeningFence(Fence + lang + "\n" + rest) == Success(rest)
  {
    var text := Fence + lang + "\n" + rest;
    assert text[..|Fence|] == Fence;
    assert text == (Fence + lang) + ['\n'] + rest;
    SplitOnceTailAfterHead(Fence + lang, '\n', rest);
  }

  /** A closing fence line is dropped with the "\n" before it. */
  lemma ClosingFenceDropped(body: string)
    ensures DropClosingFence(body + "\n" + Fence) == body
  {
    var text := body + "\n" + Fence;
    assert text[|text| - |Fence|..] == Fence;
    assert text == body + ['\n'] + Fence;
    RSplitOnceHeadBeforeTail(body, '\n', Fence);
  }

  /**
   * A reply wrapped in one pair of fence lines cleans up to exactly its body,
   * whatever whitespace the body has at its ends.
   */
  lemma FencedReplyCleansToBody(lang: string, body: string)
    requires '\n' !in lang
    ensures CleanReply(Fenced(lang, body)) == Success(body)
  {
    var reply := Fenced(lang, body);
    StripKeepsFencedReply(lang, body);
    assert reply == Fence + lang + "\n" + (body + "\n" + Fence);
    OpeningFenceDropped(lang, body + "\n" + Fence);
    ClosingFenceDropped(body);
  }

  /** Fenced or not, the same trimmed code comes out of the clean-up. */
  lemma FencedReplyMatchesUnfenced(lang: string, body: string)
    requires '\n' !in lang
    requires Strip(body) == body && !StartsWith(body, Fence) && !EndsWith(body, Fence)
    ensures CleanReply(Fenced(lang, body)) == CleanReply(body) == Success(body)
  {
    FencedReplyCleansToBody(lang, body);
  }

  /** A reply that is only an opening fence line fails: there is no "\n" to split at. */
  lemma BareFenceRaises(lang: string)
    requires '\n' !in lang
    ensures CleanReply(Fence + lang) == Failure(IndexError)
  {
    var reply := Fence + lang;
    assert reply[0] == '`' && reply[2] == '`';
    assert TrimStart(reply) == reply;
    var trimmed := TrimEnd(reply);
    assert |trimmed| > 2;
    assert trimmed[..|Fence|] == reply[..|Fence|] == Fence;
    assert '\n' !in trimmed by {
      assert '\n' !in reply;
      assert trimmed == reply[..|trimmed|];
    }
  }

  /**
   * What the language model's answer turns into: the backend failure when
   * the call raised, else the cleaned reply.
   */
  function FixedCode(reply: Option<string>): (r: Result<string, PyError>)
    ensures reply.None? ==> r == Failure(BackendError)
    ensures reply.Some? ==> r == CleanReply(reply.value)
  {
    match reply
    case None => Failure(BackendError)
    case Some(content) => CleanReply(content)
  }

  /**
   * `analyze_and_fix`: set `fixed_code` to the cleaned reply and `patch` to
   * the diff of `code` against it, as `generate_patch` writes it (header
   * lines unended); nothing else. The patch is empty exactly when the fixer
   * proposed no change.
   */
  function AnalyzeAndFix(s: AgentState, reply: Option<string>, hunks: HunkWriter): (r: Result<StateUpdate, PyError>)
    ensures r.Failure? <==> FixedCode(reply).Failure?
    ensures r.Failure? ==> r.error == FixedCode(reply).error
    ensures r.Success? ==>
              var t := Merge(s, r.value);
              && t.fixedCode == Some(FixedCode(reply).value)
              && t.patch == Some(GeneratePatchAsWritten(s.code, FixedCode(reply).value, s.filepath, hunks))
              && (t.patch.value == "" <==> FixedCode(reply).value == s.code)
              && t.code == s.code && t.errors == s.errors && t.status == s.status
  {
    var fixed :- FixedCode(reply);
    var patch := GeneratePatchAsWritten(s.code, fixed, s.filepath, hunks);
    Success(StateUpdate(None, None, Some(Some(fixed)), Some(Some(patch)), None))
  }

  /**
   * `save_results`: overwrite the file with `fixed_code` (whether the write
   * succeeded is ignored), append a log entry, and report status "fixed".
   * An exception from the log (a list-less JSON log, or a failed rewrite of
   * it) leaves the file already overwritten.
   */
  method SaveResults(w: World, s: AgentState, write: WriteOutcome, dump: WriteOutcome, timestamp: string)
    returns (r: Result<StateUpdate, PyError>)
    requires s.fixedCode.Some?
    modifies w
    ensures w.files == AfterWrite(old(w.files), s.filepath, s.fixedCode.value, write)
    ensures var after := LogAfter(old(w.log), MakeEntry(timestamp, s.filepath, s.errors, s.fixedCode, s.patch), dump);
      && w.log == after.log
      && r == if after.raised.None? then Success(StateUpdate(None, None, None, None, Some(Fixed))) else Failure(after.raised.value)
  {
    var _ := w.ApplyFix(s.filepath, s.fixedCode.value, write);
    var logged := w.LogResult(timestamp, s.filepath, s.errors, s.fixedCode, s.patch, dump);
    if logged.Failure? {
      return Failure(logged.error);
    }
    return Success(StateUpdate(None, None, None, None, Some(Fixed)));
  }

  /** The graph's nodes; `End` is LangGraph's END. */
  datatype Node = CheckCodeNode | AnalyzeAndFixNode | SaveResultsNode | End

  /** `route_check`: stop when the check found the file clean. */
  function RouteCheck(s: AgentState): (n: Node)
    ensures n == End <==> s.status == Clean
    ensures n == End || n == AnalyzeAndFixNode
  {
    if s.status == Clean then End else AnalyzeAndFixNode
  }

  /** `route_analyze`: stop after the analysis on a dry run. */
  function RouteAnalyze(s: AgentState): (n: Node)
    ensures n == End <==> s.dryRun
    ensures n == End || n == SaveResultsNode
  {
    if s.dryRun then End else SaveResultsNode
  }

  /** The edges of the compiled graph: conditional after the first two nodes, fixed after the last. */
  function Successor(n: Node, s: AgentState): (next: Node)
    requires n != End
    ensures n == CheckCodeNode ==> next == (if s.status == Clean then End else AnalyzeAndFixNode)
    ensures n == AnalyzeAndFixNode ==> next == (if s.dryRun then End else SaveResultsNode)
    ensures n == SaveResultsNode ==> next == End
  {
    match n
    case CheckCodeNode => RouteCheck(s)
    case AnalyzeAndFixNode => RouteAnalyze(s)
    case SaveResultsNode => End
  }

  function Depth(n: Node): nat {
    match n
    case CheckCodeNode => 0
    case AnalyzeAndFixNode => 1
    case SaveResultsNode => 2
    case End => 3
  }

  /** Every edge leads strictly deeper, so the graph has no cycle and a run executes at most three nodes. */
  lemma EdgesGoDeeper(n: Node, s: AgentState)
    requires n != End
    ensures Depth(Successor(n, s)) > Depth(n)
    ensures Successor(n, s) != CheckCodeNode
  {
  }

  /**
   * `run_agent`: start from the initial state at the entry node and follow
   * the edges to END. The state ends "clean" (return code 0, nothing
   * touched), "needs_fix" (dry run: fix and patch computed, nothing touched)
   * or "fixed" (file written as far as the write got, one entry logged);
   * the file is read with universal newlines, and an exception from the
   * linter report, the model call, the clean-up or the log ends the run.
   */
  method RunAgent(w: World, path: string, dryRun: bool, lint: LintOutcome,
                  reply: Option<string>, write: WriteOutcome, dump: WriteOutcome, timestamp: string,
                  hunks: HunkWriter)
    returns (r: Result<AgentState, PyError>)
    modifies w
    ensures path !in old(w.files) ==> r == Failure(KeyError("returncode")) && unchanged(w)
    ensures path in old(w.files) && lint.returncode == 0 ==>
              r == Success(InitialState(path, dryRun).(status := Clean)) && unchanged(w)
    ensures path in old(w.files) && lint.returncode != 0 && FixedCode(reply).Failure? ==>
              r == Failure(FixedCode(reply).error) && unchanged(w)
    ensures path in old(w.files) && lint.returncode != 0 && FixedCode(reply).Success? ==>
              var code, fixed := UniversalNewlines(old(w.files)[path]), FixedCode(reply).value;
              var analysed := AgentState(path, code, Some(ErrorReport(lint)), Some(fixed),
                                         Some(GeneratePatchAsWritten(code, fixed, path, hunks)), NeedsFix, dryRun);
              if dryRun then
                r == Success(analysed) && unchanged(w)
              else
                && w.files == AfterWrite(old(w.files), path, fixed, write)
                && var after := LogAfter(old(w.log), MakeEntry(timestamp, path, analysed.errors, analysed.fixedCode, analysed.patch), dump);
                   && w.log == after.log
                   && r == if after.raised.None? then Success(analysed.(status := Fixed)) else Failure(after.raised.value)
    ensures r.Success? ==> r.value.filepath == path && r.value.dryRun == dryRun
    ensures r.Success? ==> (r.value.patch.Some? <==> r.value.fixedCode.Some?)
    ensures r.Success? ==>
              match r.value.status
              case Start => false
              case Clean => lint.returncode == 0
              case NeedsFix => dryRun && lint.returncode != 0
              case Fixed => !dryRun && lint.returncode != 0
  {
    var s := InitialState(path, dryRun);
    var node := CheckCodeNode;
    var u :- CheckCode(w, s, lint);
    s := Merge(s, u);
    node := Successor(node, s);
    if node == End {
      assert s == InitialState(path, dryRun).(status := Clean);
      return Success(s);
    }
    ghost var code := UniversalNewlines(old(w.files)[path]);
    assert s == AgentState(path, code, Some(ErrorReport(lint)), None, None, NeedsFix, dryRun);
    u :- AnalyzeAndFix(s, reply, hunks);
    ghost var fixed := FixedCode(reply).value;
    s := Merge(s, u);
    assert s == AgentState(path, code, Some(ErrorReport(lint)), Some(fixed),
                           Some(GeneratePatchAsWritten(code, fixed, path, hunks)), NeedsFix, dryRun);
    node := Successor(node, s);
    if node == End {
      return Success(s);
    }
    u :- SaveResults(w, s, write, dump, timestamp);
    s := Merge(s, u);
    node := Successor(node, s);
    assert node == End;
    return Success(s);
  }
}

=== FILE: pytext.dfy ===
/**
 * The Python string and path operations the repair pipeline relies on,
 * with Python's own edge cases: `str.strip()`, `startswith`, `endswith`,
 * `split(sep, 1)[1]` (which raises IndexError when `sep` is absent),
 * `rsplit(sep, 1)[0]`, `splitlines(keepends=True)`, `"".join` and
 * POSIX `os.path.basename`.
 */
module PyText {
  import opened Wrappers

  /** The exceptions the modelled code can raise. */
  datatype PyError =
    | IndexError
    | KeyError(key: string)
    | AttributeError(name: string)
    | OSError
    | BackendError

  /** `c.isspace()`: the characters `str.strip()` removes when given no argument. */
  predicate IsSpace(c: char) {
    || ('\t' <= c <= '\r')
    || ('\U{1C}' <= c <= ' ')
    || c == '\U{85}' || c == '\U{A0}' || c == '\U{1680}'
    || ('\U{2000}' <= c <= '\U{200A}')
    || c == '\U{2028}' || c == '\U{2029}' || c == '\U{202F}' || c == '\U{205F}' || c == '\U{3000}'
  }

  /** The line boundaries of `str.splitlines`; "\r\n" counts as one boundary. */
  predicate IsLineBreak(c: char) {
    || ('\n' <= c <= '\r')
    || ('\U{1C}' <= c <= '\U{1E}')
    || c == '\U{85}' || c == '\U{2028}' || c == '\U{2029}'
  }

  predicate AllSpace(s: string) {
    forall k :: 0 <= k < |s| ==> IsSpace(s[k])
  }

  predicate NoLineBreak(s: string) {
    forall k :: 0 <= k < |s| ==> !IsLineBreak(s[k])
  }

  /** `s.lstrip()` */
  function TrimStart(s: string): (r: string)
    ensures |r| <= |s| && r == s[|s| - |r|..]
    ensures forall k :: 0 <= k < |s| - |r| ==> IsSpace(s[k])
    ensures r != [] ==> !IsSpace(r[0])
  {
    if s != [] && IsSpace(s[0]) then TrimStart(s[1..]) else s
  }

  /** `s.rstrip()` */
  function TrimEnd(s: string): (r: string)
    ensures |r| <= |s| && r == s[..|r|]
    ensures forall k :: |r| <= k < |s| ==> IsSpace(s[k])
    ensures r != [] ==> !IsSpace(r[|r| - 1])
  {
    if s != [] && IsSpace(s[|s| - 1]) then TrimEnd(s[..|s| - 1]) else s
  }

  /** `r` is the stretch of `s` that starts at `i`, with only whitespace before and after it. */
  predicate SpaceAround(s: string, r: string, i: nat) {
    i + |r| <= |s| && r == s[i..i + |r|] && AllSpace(s[..i]) && AllSpace(s[i + |r|..])
  }

  lemma TrimStartDropsSpace(s: string)
    ensures AllSpace(s[..|s| - |TrimStart(s)|])
  {
    var head := s[..|s| - |TrimStart(s)|];
    forall k | 0 <= k < |head| ensures IsSpace(head[k]) {
      assert head[k] == s[k];
    }
  }

  lemma TrimEndDropsSpace(t: string)
    ensures AllSpace(t[|TrimEnd(t)|..])
  {
    var tail := t[|TrimEnd(t)|..];
    forall k | 0 <= k < |tail| ensures IsSpace(tail[k]) {
      assert tail[k] == t[|TrimEnd(t)| + k];
    }
  }

  lemma InfixFromParts(s: string, t: string, r: string)
    requires |t| <= |s| && t == s[|s| - |t|..] && |r| <= |t| && r == t[..|r|]
    requires AllSpace(s[..|s| - |t|]) && AllSpace(t[|r|..])
    ensures SpaceAround(s, r, |s| - |t|)
  {
    var i := |s| - |t|;
    assert t[..|r|] == s[i..i + |r|];
    assert t[|r|..] == s[i + |r|..];
  }

  lemma TrimBothIsInfix(s: string)
    ensures SpaceAround(s, TrimEnd(TrimStart(s)), |s| - |TrimStart(s)|)
  {
    TrimStartDropsSpace(s);
    TrimEndDropsSpace(TrimStart(s));
    InfixFromParts(s, TrimStart(s), TrimEnd(TrimStart(s)));
  }

  /** `s.strip()`: whitespace is removed at both ends and nowhere else. */
  function Strip(s: string): (r: string)
    ensures |r| <= |s|
    ensures r != [] ==> !IsSpace(r[0]) && !IsSpace(r[|r| - 1])
    ensures r == [] <==> AllSpace(s)
    ensures s != [] && !IsSpace(s[0]) && !IsSpace(s[|s| - 1]) ==> r == s
    ensures exists i :: SpaceAround(s, r, i)
  {
    TrimBothIsInfix(s);
    TrimEnd(TrimStart(s))
  }

  function StartsWith(s: string, prefix: string): bool {
    |prefix| <= |s| && s[..|prefix|] == prefix
  }

  function EndsWith(s: string, suffix: string): bool {
    |suffix| <= |s| && s[|s| - |suffix|..] == suffix
  }

  /** `s.find(c)`: the first index of `c`, or -1. */
  function Find(s: string, c: char): (i: int)
    ensures -1 <= i < |s|
    ensures i == -1 <==> c !in s
    ensures i >= 0 ==> s[i] == c && c !in s[..i]
  {
    if s == [] then -1
    else if s[0] == c then 0
    else
      var j := Find(s[1..], c);
      assert s == [s[0]] + s[1..];
      if j == -1 then -1
      else
        assert s[..j + 1] == [s[0]] + s[1..][..j];
        j + 1
  }

  /** `s.rfind(c)`: the last index of `c`, or -1. */
  function RFind(s: string, c: char): (i: int)
    ensures -1 <= i < |s|
    ensures i == -1 <==> c !in s
    ensures i >= 0 ==> s[i] == c && c !in s[i + 1..]
  {
    if s == [] then -1
    else if s[|s| - 1] == c then |s| - 1
    else
      var j := RFind(s[..|s| - 1], c);
      assert s == s[..|s| - 1] + [s[|s| - 1]];
      if j >= 0 then
        assert s[j + 1..] == s[..|s| - 1][j + 1..] + [s[|s| - 1]];
        j
      else j
  }

  /**
   * `s.split(sep, 1)[1]`: what follows the first `sep`. Without a `sep` the
   * split has one piece only and indexing it raises IndexError.
   */
  function SplitOnceTail(s: string, sep: char): (r: Result<string, PyError>)
    ensures r.Failure? <==> sep !in s
    ensures r.Failure? ==> r.error == IndexError
    ensures r.Success? ==>
              var n := |s| - |r.value|;
              0 < n && r.value == s[n..] && s[n - 1] == sep && sep !in s[..n - 1]
  {
    var i := Find(s, sep);
    if i == -1 then Failure(IndexError) else Success(s[i + 1..])
  }

  /** `s.rsplit(sep, 1)[0]`: what precedes the last `sep`, or all of `s` when there is none. */
  function RSplitOnceHead(s: string, sep: char): (r: string)
    ensures sep !in s ==> r == s
    ensures sep in s ==> |r| < |s| && r == s[..|r|] && s[|r|] == sep && sep !in s[|r| + 1..]
  {
    var i := RFind(s, sep);
    if i == -1 then s else s[..i]
  }

  /** Splitting once at a separator that only follows a separator-free head leaves exactly the rest. */
  lemma SplitOnceTailAfterHead(head: string, sep: char, rest: string)
    requires sep !in head
    ensures SplitOnceTail(head + [sep] + rest, sep) == Success(rest)
  {
    var s := head + [sep] + rest;
    var p := |head|;
    assert s[p] == sep;
    assert s[..p] == head;
    assert s[p + 1..] == rest;
  }

  /** Splitting once from the right at a separator that precedes a separator-free tail leaves exactly the head. */
  lemma RSplitOnceHeadBeforeTail(head: string, sep: char, tail: string)
    requires sep !in tail
    ensures RSplitOnceHead(head + [sep] + tail, sep) == head
  {
    var s := head + [sep] + tail;
    assert s[|head|] == sep;
    assert s[|head| + 1..] == tail;
    assert s[..|head|] == head;
  }

  /**
   * What reading a file in text mode with universal newlines returns for the
   * stored text `t`: every "\r\n" and every other "\r" becomes "\n".
   */
  function UniversalNewlines(t: string): (r: string)
    ensures |r| <= |t|
    decreases |t|
  {
    if t == [] then []
    else if t[0] == '\r' && |t| > 1 && t[1] == '\n' then "\n" + UniversalNewlines(t[2..])
    else if t[0] == '\r' then "\n" + UniversalNewlines(t[1..])
    else [t[0]] + UniversalNewlines(t[1..])
  }

  /** The text read back holds no "\r" at all. */
  lemma {:induction false} UniversalNewlinesDropCr(t: string)
    ensures '\r' !in UniversalNewlines(t)
    decreases |t|
  {
    if t != [] {
      if t[0] == '\r' && |t| > 1 && t[1] == '\n' {
        UniversalNewlinesDropCr(t[2..]);
      } else {
        UniversalNewlinesDropCr(t[1..]);
      }
    }
  }

  /** Text without "\r" reads back exactly as stored. */
  lemma {:induction false} UniversalNewlinesKeepPlain(t: string)
    ensures '\r' !in t ==> UniversalNewlines(t) == t
    decreases |t|
  {
    if t != [] && '\r' !in t {
      assert '\r' !in t[1..];
      UniversalNewlinesKeepPlain(t[1..]);
      assert t == [t[0]] + t[1..];
    }
  }

  /** `"".join(parts)` */
  function Concat(parts: seq<string>): string {
    if parts == [] then [] else parts[0] + Concat(parts[1..])
  }

  /**
   * Where the line that starts at `i` ends (exclusive), line break included:
   * the scan stops after the first boundary, taking "\r\n" as one.
   */
  function LineEnd(s: string, i: nat): (e: nat)
    requires i <= |s|
    ensures i <= e <= |s|
    ensures i < |s| ==> i < e
    ensures e < |s| ==> IsLineBreak(s[e - 1])
    decreases |s| - i
  {
    if i == |s| then |s|
    else if s[i] == '\r' && i + 1 < |s| && s[i + 1] == '\n' then i + 2
    else if IsLineBreak(s[i]) then i + 1
    else LineEnd(s, i + 1)
  }

  /** The scan passes no line break on its way, except the "\r" of a final "\r\n". */
  lemma {:induction false} LineEndFirstBreak(s: string, i: nat)
    requires i <= |s|
    ensures forall k :: i <= k < LineEnd(s, i) - 1 && IsLineBreak(s[k]) ==>
              k == LineEnd(s, i) - 2 && s[k] == '\r' && s[k + 1] == '\n'
    decreases |s| - i
  {
    if i < |s| && !IsLineBreak(s[i]) {
      LineEndFirstBreak(s, i + 1);
    }
  }

  /** `s.splitlines(keepends=True)` */
  function SplitLines(s: string): (lines: seq<string>)
    ensures s == [] <==> lines == []
    decreases |s|
  {
    if s == [] then [] else [s[..LineEnd(s, 0)]] + SplitLines(s[LineEnd(s, 0)..])
  }

  /**
   * A piece of `splitlines(keepends=True)`: not empty, ending in a line
   * break unless it is the last piece, and holding no other line break than
   * its last character (or its final "\r\n").
   */
  predicate IsLine(piece: string, last: bool) {
    && piece != []
    && (!last ==> IsLineBreak(piece[|piece| - 1]))
    && forall k :: 0 <= k < |piece| - 1 && IsLineBreak(piece[k]) ==>
         k == |piece| - 2 && piece[k] == '\r' && piece[k + 1] == '\n'
  }

  lemma {:induction false} SplitLinesAreLines(s: string)
    ensures forall j :: 0 <= j < |SplitLines(s)| ==> IsLine(SplitLines(s)[j], j == |SplitLines(s)| - 1)
    decreases |s|
  {
    if s != [] {
      var e := LineEnd(s, 0);
      var first := s[..e];
      var rest := SplitLines(s[e..]);
      SplitLinesAreLines(s[e..]);
      var lines := SplitLines(s);
      assert lines == [first] + rest;
      assert IsLine(first, |lines| == 1) by {
        if 1 < |lines| {
          assert e < |s|;
        }
        LineEndFirstBreak(s, 0);
        forall k | 0 <= k < |first| - 1 && IsLineBreak(first[k])
          ensures k == |first| - 2 && first[k] == '\r' && first[k + 1] == '\n'
        {
          assert first[k] == s[k];
        }
      }
      forall j | 1 <= j < |lines|
        ensures IsLine(lines[j], j == |lines| - 1)
      {
        assert lines[j] == rest[j - 1] && |lines| == |rest| + 1;
        assert IsLine(rest[j - 1], j - 1 == |rest| - 1);
      }
    }
  }

  /** A line never stops between the "\r" and the "\n" of a "\r\n". */
  lemma {:induction false} LineEndKeepsCrLf(s: string, i: nat)
    requires i <= |s|
    ensures LineEnd(s, i) < |s| && s[LineEnd(s, i) - 1] == '\r' ==> s[LineEnd(s, i)] != '\n'
    decreases |s| - i
  {
    if i < |s| && !IsLineBreak(s[i]) {
      LineEndKeepsCrLf(s, i + 1);
    }
  }

  /** No two neighbouring pieces split a "\r\n": Python counts it as one line boundary. */
  predicate CrLfKept(lines: seq<string>) {
    forall j :: 0 <= j < |lines| - 1 && lines[j] != [] && lines[j + 1] != [] && lines[j][|lines[j]| - 1] == '\r' ==>
      lines[j + 1][0] != '\n'
  }

  lemma {:induction false} SplitLinesKeepCrLf(s: string)
    ensures CrLfKept(SplitLines(s))
    decreases |s|
  {
    if s != [] {
      var e := LineEnd(s, 0);
      var rest := SplitLines(s[e..]);
      SplitLinesKeepCrLf(s[e..]);
      var lines := SplitLines(s);
      assert lines == [s[..e]] + rest;
      if rest != [] {
        LineEndKeepsCrLf(s, 0);
        assert e < |s|;
        var e2 := LineEnd(s[e..], 0);
        assert rest[0] == s[e..][..e2];
        assert rest[0][0] == s[e];
      }
      forall j | 0 <= j < |lines| - 1 && lines[j] != [] && lines[j + 1] != [] && lines[j][|lines[j]| - 1] == '\r'
        ensures lines[j + 1][0] != '\n'
      {
        if j > 0 {
          assert lines[j] == rest[j - 1] && lines[j + 1] == rest[j];
        }
      }
    }
  }

  /** Joining the pieces of `splitlines(keepends=True)` gives back the input. */
  lemma {:induction false} SplitLinesJoin(s: string)
    ensures Concat(SplitLines(s)) == s
    decreases |s|
  {
    if s != [] {
      var e := LineEnd(s, 0);
      var lines := SplitLines(s);
      SplitLinesJoin(s[e..]);
      assert lines[0] == s[..e];
      assert lines[1..] == SplitLines(s[e..]);
      assert s[..e] + s[e..] == s;
    }
  }

  /** So two texts with the same lines are the same text. */
  lemma SplitLinesInjective(a: string, b: string)
    requires SplitLines(a) == SplitLines(b)
    ensures a == b
  {
    SplitLinesJoin(a);
    SplitLinesJoin(b);
  }

  lemma {:induction false} LineEndSkips(s: string, i: nat, j: nat)
    requires i <= j <= |s|
    requires forall k :: i <= k < j ==> !IsLineBreak(s[k])
    ensures LineEnd(s, i) == LineEnd(s, j)
    decreases j - i
  {
    if i < j {
      LineEndSkips(s, i + 1, j);
    }
  }

  /** A line-break-free `q` followed by "\n" is the first line of the text. */
  lemma FirstLineEndsAtNewline(q: string, rest: string)
    requires NoLineBreak(q)
    ensures SplitLines(q + "\n" + rest) == [q + "\n"] + SplitLines(rest)
  {
    var s := q + "\n" + rest;
    LineEndSkips(s, 0, |q|);
    assert s[|q|] == '\n';
    assert LineEnd(s, 0) == |q| + 1;
    assert s[..|q| + 1] == q + "\n";
    assert s[|q| + 1..] == rest;
  }

  /** A line-break-free `q` at the head of the text lies wholly inside its first line. */
  lemma FirstLineRunsOn(q: string, rest: string)
    requires NoLineBreak(q) && q != []
    ensures var lines := SplitLines(q + rest); |lines| > 0 && StartsWith(lines[0], q)
  {
    var s := q + rest;
    LineEndSkips(s, 0, |q|);
    var e := LineEnd(s, 0);
    assert e >= |q|;
    assert SplitLines(s)[0] == s[..e];
    assert s[..e][..|q|] == q;
  }

  /** `os.path.basename` on POSIX: what follows the last "/". */
  function Basename(path: string): (name: string)
    ensures '/' !in name
    ensures |name| <= |path| && name == path[|path| - |name|..]
    ensures |name| < |path| ==> path[|path| - |name| - 1] == '/'
  {
    path[RFind(path, '/') + 1..]
  }
}

=== FILE: utils.dfy ===
/**
 * The helpers of `utils.py`: the linter adapter's result shape, the unified
 * patch, the append-only results log and the patch file name, over a world
 * made of a file map and the log store.
 */
module Utils {
  import opened Wrappers
  import opened PyText

  /** What `subprocess.run` reports for the linter process. */
  datatype LintOutcome = LintOutcome(returncode: int, stdout: string, stderr: string)

  /** The dict `lint_file` returns: an error entry alone, or the process outcome. */
  datatype LintReport = FileNotFound(error: string) | Ran(outcome: LintOutcome)

  /**
   * `lint_file`: a path that does not exist gives only an "error" entry, so
   * the report then has no return code; otherwise the linter's outcome
   * (supplied by the caller, since the process is not modelled) is reported.
   */
  function LintFile(files: map<string, string>, path: string, outcome: LintOutcome): (r: LintReport)
    ensures r.Ran? <==> path in files
    ensures r.Ran? ==> r.outcome == outcome
    ensures r.FileNotFound? ==> r.error == "File not found"
  {
    if path !in files then FileNotFound("File not found") else Ran(outcome)
  }

  /** One record of `results.json`. */
  datatype LogEntry = LogEntry(
    timestamp: string,
    filepath: string,
    errors: Option<string>,
    patch: Option<string>,
    status: string)

  /**
   * What `results.json` holds: no file, text that is not JSON, a JSON list of
   * records, or JSON that is not a list (a dict, a string, a number).
   */
  datatype LogStore = Absent | Malformed | JsonList(entries: seq<LogEntry>) | JsonOther

  /** The outcome a log entry records: "fixed" exactly when `fixed_code` is truthy. */
  function LogOutcome(fixedCode: Option<string>): (status: string)
    ensures status == "fixed" <==> fixedCode.Some? && |fixedCode.value| > 0
    ensures status != "fixed" ==> status == "failed"
  {
    match fixedCode
    case None => "failed"
    case Some(code) => if code == "" then "failed" else "fixed"
  }

  /** The record `log_result` appends: the arguments as given, and the outcome of the fix. */
  function MakeEntry(timestamp: string, path: string, errors: Option<string>,
                     fixedCode: Option<string>, patch: Option<string>): (e: LogEntry)
    ensures e.timestamp == timestamp && e.filepath == path && e.errors == errors && e.patch == patch
    ensures e.status == "fixed" <==> fixedCode.Some? && fixedCode.value != ""
    ensures e.status == LogOutcome(fixedCode)
  {
    LogEntry(timestamp, path, errors, patch, LogOutcome(fixedCode))
  }

  /** The list `log_result` starts from: the stored list, or empty when the file is missing or not JSON. */
  function Loaded(store: LogStore): seq<LogEntry> {
    if store.JsonList? then store.entries else []
  }

  /**
   * The list `log_result` writes back. Appending to JSON that is not a list
   * raises AttributeError and nothing is written.
   */
  function Appended(store: LogStore, entry: LogEntry): (r: Result<seq<LogEntry>, PyError>)
    ensures r.Failure? <==> store.JsonOther?
    ensures r.Failure? ==> r.error == AttributeError("append")
    ensures r.Success? ==>
              && |r.value| == |Loaded(store)| + 1
              && r.value[..|Loaded(store)|] == Loaded(store)
              && r.value[|r.value| - 1] == entry
    ensures store.Absent? || store.Malformed? ==> r == Success([entry])
  {
    if store.JsonOther? then Failure(AttributeError("append"))
    else Success(Loaded(store) + [entry])
  }

  /** The store after several `log_result` calls in a row, one entry each. */
  function AppendAll(store: LogStore, entries: seq<LogEntry>): LogStore
    decreases |entries|
  {
    if entries == [] then store
    else
      match Appended(store, entries[0])
      case Success(list) => AppendAll(JsonList(list), entries[1..])
      case Failure(_) => store
  }

  /** After N logged results the log holds the earlier entries followed by the N new ones, in order. */
  lemma {:induction false} AppendAllKeepsOrder(store: LogStore, entries: seq<LogEntry>)
    requires !store.JsonOther?
    ensures Loaded(AppendAll(store, entries)) == Loaded(store) + entries
    ensures entries != [] ==> AppendAll(store, entries).JsonList?
    decreases |entries|
  {
    if entries == [] {
      assert Loaded(store) + entries == Loaded(store);
    } else {
      var next := JsonList(Loaded(store) + [entries[0]]);
      assert Appended(store, entries[0]) == Success(Loaded(store) + [entries[0]]);
      AppendAllKeepsOrder(next, entries[1..]);
      assert Loaded(next) + entries[1..] == Loaded(store) + entries by {
        assert entries == [entries[0]] + entries[1..];
      }
    }
  }

  /** A missing or unreadable log is replaced by a one-entry list: the earlier content is lost. */
  lemma LostLogRestartsWithEntry(store: LogStore, entry: LogEntry)
    requires store.Absent? || store.Malformed?
    ensures AppendAll(store, [entry]) == JsonList([entry])
  {
    AppendAllKeepsOrder(store, [entry]);
  }

  const PatchesDir: string := "patches"

  /** The four parts of a joined name can each be read back from their places. */
  lemma JoinedParts(a: string, b: string, c: string, d: string, x: char)
    ensures var p := a + b + c + d;
      && p[..|a|] == a && p[|a|..] == b + c + d && (b + c + d)[..|b|] == b
      && p[|a| + |b|..|p| - |d|] == c && p[|p| - |d|..] == d
      && (x !in b && x !in c && x !in d ==> x !in p[|a|..])
  {
    var p := a + b + c + d;
    assert p == a + (b + c + d);
    assert b + c + d == b + (c + d);
    assert p == (a + b) + c + d;
  }

  const PatchSuffix: string := ".patch"

  /** `os.path.join("patches", f"{basename}_{timestamp}.patch")`; the timestamp is passed in as text. */
  function PatchPath(path: string, timestamp: string): (p: string)
    ensures StartsWith(p, PatchesDir + "/") && EndsWith(p, PatchSuffix)
    ensures StartsWith(p[|PatchesDir| + 1..], Basename(path) + "_")
    ensures '/' !in timestamp ==> '/' !in p[|PatchesDir| + 1..]
    ensures |p| == |PatchesDir| + 1 + |Basename(path)| + 1 + |timestamp| + |PatchSuffix|
    ensures p[|PatchesDir| + 1 + |Basename(path)| + 1..|p| - |PatchSuffix|] == timestamp
  {
    var stem := Basename(path) + "_";
    assert '/' !in stem;
    assert '/' !in PatchSuffix by {
      var tail := PatchSuffix;
      assert forall k :: 0 <= k < |tail| ==> tail[k] != '/';
    }
    JoinedParts(PatchesDir + "/", stem, timestamp, PatchSuffix, '/');
    (PatchesDir + "/") + stem + timestamp + PatchSuffix
  }

  /** The hunk lines `difflib.unified_diff` emits after the two file headers (not modelled). */
  type HunkWriter = (seq<string>, seq<string>, string) -> seq<string>

  /**
   * `difflib.unified_diff(a, b, fromfile, tofile, lineterm=lineterm)`: nothing
   * at all for equal line lists; otherwise the "---" and "+++" header lines,
   * each followed by `lineterm`, then the hunks.
   */
  function UnifiedDiff(a: seq<string>, b: seq<string>, fromFile: string, toFile: string,
                       lineterm: string, hunks: HunkWriter): (r: seq<string>)
    ensures r == [] <==> a == b
    ensures a != b ==> |r| >= 2 && r[0] == "--- " + fromFile + lineterm && r[1] == "+++ " + toFile + lineterm
  {
    if a == b then []
    else ["--- " + fromFile + lineterm, "+++ " + toFile + lineterm] + hunks(a, b, lineterm)
  }

  /** `generate_patch` for a given `lineterm`: split keeping line ends, diff with labels a/ and b/, join. */
  function UnifiedPatch(original: string, revised: string, path: string, lineterm: string, hunks: HunkWriter): string {
    Concat(UnifiedDiff(SplitLines(original), SplitLines(revised), "a/" + path, "b/" + path, lineterm, hunks))
  }

  /** `generate_patch` as written, with `lineterm=""`; the pipeline uses this one. */
  function GeneratePatchAsWritten(original: string, revised: string, path: string, hunks: HunkWriter): (patch: string)
    ensures patch == "" <==> original == revised
  {
    PatchEmptyIffUnchanged(original, revised, path, "", hunks);
    UnifiedPatch(original, revised, path, "", hunks)
  }

  /** `generate_patch` with its header lines ended by "\n", as a patch reader expects. */
  function GeneratePatch(original: string, revised: string, path: string, hunks: HunkWriter): (patch: string)
    ensures patch == "" <==> original == revised
  {
    PatchEmptyIffUnchanged(original, revised, path, "\n", hunks);
    UnifiedPatch(original, revised, path, "\n", hunks)
  }

  lemma ConcatTwoHeads(h1: string, h2: string, rest: seq<string>)
    ensures Concat([h1, h2] + rest) == h1 + (h2 + Concat(rest))
  {
    var parts := [h1, h2] + rest;
    assert parts[1..] == [h2] + rest;
    assert ([h2] + rest)[1..] == rest;
  }

  /** The patch is empty exactly when the new content equals the original, whatever the labels. */
  lemma PatchEmptyIffUnchanged(original: string, revised: string, path: string, lineterm: string, hunks: HunkWriter)
    ensures UnifiedPatch(original, revised, path, lineterm, hunks) == "" <==> original == revised
  {
    var a, b := SplitLines(original), SplitLines(revised);
    if original != revised {
      if a == b {
        SplitLinesInjective(original, revised);
      }
      var h1 := "--- " + ("a/" + path) + lineterm;
      var h2 := "+++ " + ("b/" + path) + lineterm;
      assert UnifiedDiff(a, b, "a/" + path, "b/" + path, lineterm, hunks) == [h1, h2] + hunks(a, b, lineterm);
      ConcatTwoHeads(h1, h2, hunks(a, b, lineterm));
      assert |h1| > 0;
    }
  }

  /** With the header lines ended, the patch opens with the lines "--- a/<path>" and "+++ b/<path>". */
  lemma PatchHeaderLines(original: string, revised: string, path: string, hunks: HunkWriter)
    requires original != revised && NoLineBreak(path)
    ensures var lines := SplitLines(GeneratePatch(original, revised, path, hunks));
      |lines| >= 2 && lines[0] == "--- a/" + path + "\n" && lines[1] == "+++ b/" + path + "\n"
  {
    var a, b := SplitLines(original), SplitLines(revised);
    PatchEmptyIffUnchanged(original, revised, path, "\n", hunks);
    assert a != b;
    var q1, q2 := "--- a/" + path, "+++ b/" + path;
    assert "--- " + ("a/" + path) == q1 && "+++ " + ("b/" + path) == q2;
    var rest := Concat(hunks(a, b, "\n"));
    assert UnifiedDiff(a, b, "a/" + path, "b/" + path, "\n", hunks) == [q1 + "\n", q2 + "\n"] + hunks(a, b, "\n");
    ConcatTwoHeads(q1 + "\n", q2 + "\n", hunks(a, b, "\n"));
    assert GeneratePatch(original, revised, path, hunks) == q1 + "\n" + (q2 + "\n" + rest);
    assert NoLineBreak(q1) by {
      forall k | 0 <= k < |q1| ensures !IsLineBreak(q1[k]) {
        if k >= 6 { assert q1[k] == path[k - 6]; }
      }
    }
    assert NoLineBreak(q2) by {
      forall k | 0 <= k < |q2| ensures !IsLineBreak(q2[k]) {
        if k >= 6 { assert q2[k] == path[k - 6]; }
      }
    }
    FirstLineEndsAtNewline(q1, q2 + "\n" + rest);
    FirstLineEndsAtNewline(q2, rest);
  }

  /** As written (`lineterm=""`), both header labels fall into the patch's first line. */
  lemma AsWrittenHeadersShareFirstLine(original: string, revised: string, path: string, hunks: HunkWriter)
    requires original != revised && NoLineBreak(path)
    ensures var lines := SplitLines(GeneratePatchAsWritten(original, revised, path, hunks));
      |lines| > 0 && StartsWith(lines[0], "--- a/" + path + "+++ b/" + path)
  {
    var a, b := SplitLines(original), SplitLines(revised);
    PatchEmptyIffUnchanged(original, revised, path, "", hunks);
    assert a != b;
    var q := "--- a/" + path + "+++ b/" + path;
    var rest := Concat(hunks(a, b, ""));
    var q1, q2 := "--- a/" + path, "+++ b/" + path;
    assert "--- " + ("a/" + path) + "" == q1 && "+++ " + ("b/" + path) + "" == q2;
    assert UnifiedDiff(a, b, "a/" + path, "b/" + path, "", hunks) == [q1, q2] + hunks(a, b, "");
    ConcatTwoHeads(q1, q2, hunks(a, b, ""));
    assert q1 + (q2 + rest) == q + rest;
    assert GeneratePatchAsWritten(original, revised, path, hunks) == q + rest;
    assert NoLineBreak(q) by {
      forall k | 0 <= k < |q| ensures !IsLineBreak(q[k]) {
        if 6 <= k < 6 + |path| {
          assert q[k] == path[k - 6];
        } else if 12 + |path| <= k {
          assert q[k] == path[k - 12 - |path|];
        }
      }
    }
    FirstLineRunsOn(q, rest);
  }

  /**
   * So for every real change, the first line of the patch as written is not
   * the "--- a/<path>" header line a patch reader expects: the "+++" header
   * follows on the same line.
   */
  lemma AsWrittenFirstLineNotHeader(original: string, revised: string, path: string, hunks: HunkWriter)
    requires original != revised && NoLineBreak(path)
    ensures var lines := SplitLines(GeneratePatchAsWritten(original, revised, path, hunks));
      |lines| > 0 && lines[0] != "--- a/" + path + "\n"
  {
    AsWrittenHeadersShareFirstLine(original, revised, path, hunks);
    var first := SplitLines(GeneratePatchAsWritten(original, revised, path, hunks))[0];
    var q := "--- a/" + path + "+++ b/" + path;
    var n := |"--- a/" + path|;
    assert first[..|q|] == q;
    assert first[n] == q[n] == '+';
    assert ("--- a/" + path + "\n")[n] == '\n';
  }

  /**
   * How `open(path, 'w')` followed by `f.write(content)` turns out: the whole
   * content is written; the open fails and the file is untouched; or the open
   * truncates the file and the write or the close then fails, leaving only the
   * first `kept` characters of the content (none, when nothing was flushed).
   */
  datatype WriteOutcome = Written | OpenFailed | WriteFailed(kept: nat)

  /** The files after writing `content` to `path` with the given outcome. */
  function AfterWrite(files: map<string, string>, path: string, content: string, outcome: WriteOutcome): (r: map<string, string>)
    ensures outcome.OpenFailed? ==> r == files
    ensures !outcome.OpenFailed? ==> path in r && r == files[path := r[path]] && StartsWith(content, r[path])
    ensures outcome.Written? ==> r[path] == content
  {
    match outcome
    case Written => files[path := content]
    case OpenFailed => files
    case WriteFailed(kept) =>
      var n := if kept < |content| then kept else |content|;
      files[path := content[..n]]
  }

  /** What `log_result` leaves behind: the log, and the exception it raised, if any. */
  datatype Logged = Logged(log: LogStore, raised: Option<PyError>)

  /**
   * `log_result` with the outcome `dump` of rewriting `results.json`: the
   * append raises on JSON that is not a list; otherwise the rewrite either
   * stores the appended list, fails to open and leaves the log as it was, or
   * fails part way and leaves a cut-off text that is no longer JSON.
   */
  function LogAfter(store: LogStore, entry: LogEntry, dump: WriteOutcome): (r: Logged)
    ensures r.raised.None? <==> !store.JsonOther? && dump.Written?
    ensures r.raised.None? ==> r.log == JsonList(Loaded(store) + [entry])
    ensures store.JsonOther? ==> r == Logged(store, Some(AttributeError("append")))
    ensures !store.JsonOther? && dump.OpenFailed? ==> r == Logged(store, Some(OSError))
    ensures !store.JsonOther? && dump.WriteFailed? ==> r == Logged(Malformed, Some(OSError))
  {
    match Appended(store, entry)
    case Failure(e) => Logged(store, Some(e))
    case Success(entries) =>
      match dump
      case Written => Logged(JsonList(entries), None)
      case OpenFailed => Logged(store, Some(OSError))
      case WriteFailed(_) => Logged(Malformed, Some(OSError))
  }

  /**
   * A rewrite of the log that fails part way loses every earlier entry: the
   * next successful `log_result` starts again from its own entry alone.
   */
  lemma TornLogLosesHistory(store: LogStore, first: LogEntry, second: LogEntry, kept: nat)
    requires !store.JsonOther?
    ensures LogAfter(LogAfter(store, first, WriteFailed(kept)).log, second, Written) == Logged(JsonList([second]), None)
  {
    assert LogAfter(store, first, WriteFailed(kept)).log == Malformed;
  }

  /** The files and the results log: the only state the pipeline changes. */
  class World {
    var files: map<string, string>
    var log: LogStore

    constructor (files: map<string, string>, log: LogStore)
      ensures this.files == files && this.log == log
    {
      this.files := files;
      this.log := log;
    }

    /** `read_file` */
    function ReadFile(path: string): (content: string)
      requires path in files
      reads this
      ensures content == UniversalNewlines(files[path])
      ensures '\r' !in content
      ensures '\r' !in files[path] ==> content == files[path]
    {
      UniversalNewlinesDropCr(files[path]);
      UniversalNewlinesKeepPlain(files[path]);
      UniversalNewlines(files[path])
    }

    /**
     * `with open(path, 'w') as f: f.write(content)`: the open empties the
     * file, the write fills it; a failing open, write or close raises OSError
     * (`outcome` stands for what the system calls do).
     */
    method WriteText(path: string, content: string, outcome: WriteOutcome) returns (r: Result<(), PyError>)
      modifies this
      ensures r.Success? <==> outcome.Written?
      ensures r.Failure? ==> r.error == OSError
      ensures files == AfterWrite(old(files), path, content, outcome)
      ensures log == old(log)
    {
      if outcome.OpenFailed? {
        return Failure(OSError);
      }
      files := files[path := ""];
      if outcome.WriteFailed? {
        var n := if outcome.kept < |content| then outcome.kept else |content|;
        files := files[path := content[..n]];
        return Failure(OSError);
      }
      files := files[path := content];
      return Success(());
    }

    /** `apply_fix`: the write, with any exception it raises turned into the answer false. */
    method ApplyFix(path: string, newContent: string, outcome: WriteOutcome) returns (ok: bool)
      modifies this
      ensures ok <==> outcome.Written?
      ensures files == AfterWrite(old(files), path, newContent, outcome)
      ensures log == old(log)
    {
      var written := WriteText(path, newContent, outcome);
      ok := written.Success?;
    }

    /**
     * `log_result`: build the entry, load the stored list (an empty one when
     * the file is missing or not JSON), append the entry in place and write
     * the whole list back, with no handler around that write (`dump` stands
     * for what the system calls do).
     */
    method LogResult(timestamp: string, path: string, errors: Option<string>,
                     fixedCode: Option<string>, patch: Option<string>, dump: WriteOutcome)
      returns (r: Result<(), PyError>)
      modifies this
      ensures files == old(files)
      ensures var after := LogAfter(old(log), MakeEntry(timestamp, path, errors, fixedCode, patch), dump);
        log == after.log && (r.Success? <==> after.raised.None?) && (r.Failure? ==> r == Failure(after.raised.value))
    {
      var entry := MakeEntry(timestamp, path, errors, fixedCode, patch);
      var data: seq<LogEntry> := [];
      if log.JsonList? {
        data := log.entries;
      } else if log.JsonOther? {
        return Failure(AttributeError("append"));
      }
      data := data + [entry];
      if dump.OpenFailed? {
        return Failure(OSError);
      }
      if dump.WriteFailed? {
        log := Malformed;
        return Failure(OSError);
      }
      log := JsonList(data);
      return Success(());
    }

    /**
     * `save_patch_to_disk`: write the patch under "patches/" and return the
     * path used; a failing write raises, with no handler around it.
     */
    method SavePatchToDisk(path: string, patchContent: string, timestamp: string, outcome: WriteOutcome)
      returns (r: Result<string, PyError>)
      modifies this
      ensures r == if outcome.Written? then Success(PatchPath(path, timestamp)) else Failure(OSError)
      ensures files == AfterWrite(old(files), PatchPath(path, timestamp), patchContent, outcome)
      ensures log == old(log)
    {
      var patchPath := PatchPath(path, timestamp);
      var written := WriteText(patchPath, patchContent, outcome);
      if written.Failure? {
        return Failure(written.error);
      }
      return Success(patchPath);
    }
  }
}

=== FILE: wrappers.dfy ===
/** Option and Result, used for Python's `None` and for exceptions that end a call. */
module Wrappers {

  datatype Option<+T> = None | Some(value: T)

  datatype Result<+R, +E> = Success(value: R) | Failure(error: E) {

    predicate IsFailure() {
      Failure?
    }

    function PropagateFailure<U>(): Result<U, E>
      requires Failure?
    {
      Failure(error)
    }

    function Extract(): R
      requires Success?
    {
      value
    }
  }
}
